=== FILE: README.md ===
# To-do screen: greeting and task list editor

A model of the single screen of a React Native to-do application. It covers two parts:

- the **greeting**, one of four fixed labels chosen from the hour of the day;
- the **task list editor**, which holds three pieces of state and four handlers that change them.
  - The state is the draft in the text field (`task`), the ordered list of tasks (`tasks`), and the edit cursor (`editIndex`, where -1 means "not editing").
  - The handlers are typing, submit (add or update), start-edit and delete.

Each handler is one atomic transition from one immutable `Editor` snapshot to the next. A session is a sequence of such events.

Files:

- `greeting.dfy` (module `Greeting`): maps an hour to a label.
- `js_array.dfy` (module `JsArray`): the JavaScript semantics the handlers rely on.
  - truthiness of the draft;
  - assignment `a[k] = v` to an index that may lie past the end;
  - `splice(i, 1)`.
- `task_editor.dfy` (module `TaskEditor`): the state, the four handlers and the button caption.
  - It also defines the invariant `Consistent`: every task is a non-empty string, the draft is a string, and the cursor is off or on a row.
- `stale_cursor.dfy` (module `StaleCursor`): what delete does to an edit in progress.
- `session.dfy` (module `Session`): event sequences, and the invariant over whole runs.

The delete handler never adjusts the edit cursor. After a delete at or before the edited row, the cursor denotes another row, or points at or past the end of the list. The model keeps this visible instead of assuming it away.

- The write at the cursor follows JavaScript: writing past the end grows the array and leaves holes (`JsArray.Store`).
- `DeleteKeepsConsistentIff` states exactly when a delete breaks the invariant.
- The `StaleCursor` lemmas show where the next submit's draft ends up: over the following row, appended, or after a hole.

A hole and an `undefined` element are one value (`Undefined`) here. Every handler that writes the list first copies it with the spread operator, which turns holes into `undefined`. Start-edit and the list's rendering read by index, which yields `undefined` for a hole as well. Nothing the application does tells the two apart.

The emptiness check on submit is JavaScript truthiness, not a test on the trimmed string. So only `""` (or `undefined`) is rejected, and a whitespace-only draft such as `"   "` is added as it is (`SubmitRejectsOnlyEmptyDraft`, `NonEmptyDraftIsAppended`).

## Model

| member | source | states |
|---|---|---|
| Greeting.GreetingFor | App.js:19-29 | The label is one of the four fixed ones. "Good Morning" holds exactly for hours in [5,12), "Good Afternoon" exactly for [12,17), "Good Evening" exactly for [17,21). For a clock hour, "Good Night" holds exactly for [21,24) and [0,5). |
| Greeting.GreetingChangesOnlyAtBoundaries | App.js:21-29 | Stepping the clock by one hour (23 wraps to 0) changes the greeting exactly when the new hour is 5, 12, 17 or 21. |
| Greeting.GreetingBoundaryHours | App.js:21-29 | The greetings at the boundary hours 4, 5, 11, 12, 16, 17, 20, 21, 23 and 0. |
| JsArray.Store | App.js:41-42 | Assigning to array index k replaces element k when k is inside the array. Otherwise the array grows to length k+1, positions from the old end to k-1 are holes, and all earlier elements are unchanged. |
| JsArray.StoreKeepsAllTruthyIff | App.js:41-42 | Storing a non-empty string into a hole-free array of non-empty strings keeps it hole-free exactly when the index is at most the old length. |
| JsArray.SpliceOne | App.js:59-60 | `splice(i, 1)` shortens the array by one, keeps the elements before i, and moves every later element down one position. |
| JsArray.SpliceOneInverse | App.js:59-60 | Re-inserting the removed element at i restores the array, and the multiset drops exactly that one element. |
| JsArray.SpliceOneKeepsAllTruthy | App.js:59-60 | Removing one element of a list of non-empty strings leaves a list of non-empty strings. |
| JsArray.Truthy | App.js:39 | `undefined` and `""` are falsy, and every other string, whitespace-only included, is truthy. |
| TaskEditor.Initial | App.js:12-14 | The mounted screen has an empty list, the cursor at -1, and a draft that is a falsy string. |
| TaskEditor.SetDraft | App.js:87 | Typing makes the draft the typed text and changes neither the list nor the cursor. |
| TaskEditor.Submit | App.js:38-50 | A falsy draft leaves the whole state unchanged. Otherwise the draft is cleared and the cursor reset to -1. In add mode the draft is appended after an unchanged list. In edit mode the draft is at the cursor and every other existing element is unchanged. The length stays the same for a cursor inside the list, and becomes cursor+1 for a cursor at or past the end, with holes in between only when the cursor is strictly past it. |
| TaskEditor.StartEdit | App.js:52-56 | Start-edit on row i makes the draft that row's value and the cursor i, even during another edit, and leaves the list unchanged. |
| TaskEditor.Delete | App.js:58-62 | Delete of row i shortens the list by one, keeps the rows before i, moves later rows down, and leaves the draft and the cursor unchanged. |
| TaskEditor.ButtonLabel | App.js:90-92 | The caption is "Update Task" exactly when the cursor is not -1, and "Add Task" otherwise. |
| TaskEditor.InitialIsConsistent | App.js:12-14 | The mounted screen (empty draft, empty list, cursor -1) satisfies the invariant and shows "Add Task". |
| TaskEditor.SubmitRejectsOnlyEmptyDraft | App.js:39 | For any typed text, submit is a no-op exactly when the text is empty. |
| TaskEditor.NonEmptyDraftIsAppended | App.js:39-48 | In add mode, every non-empty typed text, whitespace-only ones such as `"   "` included, is appended exactly as typed, untrimmed. |
| TaskEditor.SubmitAppendsDuplicates | App.js:45-48 | Adding the same text twice appends two equal tasks. |
| TaskEditor.EditUnchangedRoundTrip | App.js:38-56 | Start-edit on a row followed by submit of the unchanged draft returns the original list and leaves edit mode. |
| TaskEditor.SubmitKeepsConsistent | App.js:38-50 | Submit preserves the invariant. |
| TaskEditor.StartEditKeepsConsistent | App.js:52-56 | Start-edit preserves the invariant. |
| TaskEditor.SetDraftKeepsConsistent | App.js:87 | Typing preserves the invariant. |
| TaskEditor.DeleteKeepsConsistentIff | App.js:58-62 | From a consistent state, delete keeps the invariant exactly when no edit is in progress or the edited row is not the last row. |
| TaskEditor.ButtonLabelAfterStartEdit | App.js:52-56 | The caption is "Update Task" right after start-edit on any row, from any state. |
| TaskEditor.ButtonLabelAfterSubmit | App.js:38-50 | For every state, including an empty list, the caption is "Add Task" right after an accepted submit, and a rejected submit leaves it unchanged. |
| StaleCursor.DeleteAfterCursorKeepsEditedRow | App.js:52-62 | Deleting a row after the edited one leaves the edited row at the cursor. |
| StaleCursor.DeleteAtOrBeforeCursorRetargets | App.js:52-62 | Deleting the edited row or one before it leaves the cursor at i. Position i now holds the row that followed the edited one, or the cursor equals the new length when the edited row was last. |
| StaleCursor.StaleSubmitOverwritesNextRow | App.js:38-62 | After such a delete, submit writes the draft over the row that followed the edited one. The resulting list is given in full. If the deleted row came before the edited row, the edited text appears twice. |
| StaleCursor.RetypedStaleSubmitOverwritesNextRow | App.js:38-62 | Start-edit on row i, retyping a non-empty text, deleting a row j at or before i, then submitting gives the spliced list with the new text at position i. Position i held the row that followed the edited one, so that row is lost. |
| StaleCursor.StaleSubmitAppendsPastEnd | App.js:38-62 | When the edited row was the last one, the submit after such a delete appends instead of replacing. |
| StaleCursor.TwoDeletesLeaveHole | App.js:38-62 | While the last row is edited, two deletes at the front put the cursor past the end. The next submit leaves a hole before the appended draft, and the state is no longer consistent. |
| StaleCursor.HoleDraftSubmitIgnored | App.js:39-56 | Start-edit on a hole makes the draft `undefined`. A submit straight after it is ignored and the button stays "Update Task". Typing a non-empty text first and then submitting fills the hole with that text. |
| Session.Step | App.js:68-89 | Each user event runs its handler: the row Edit and Delete buttons, the text field, the submit button. Typing and start-edit leave the list unchanged. Delete splices out exactly the pressed row, keeping the other rows in order and the draft and cursor unchanged. A press is the submit handler: with a falsy draft it changes nothing, and an accepted press clears the draft and shows "Add Task". After start-edit the draft is the row's value and the button shows "Update Task". |
| Session.StepKeepsConsistent | App.js:38-62 | Each event preserves the invariant, provided it is not a delete at or before an edit in progress. |
| Session.DisciplinedRunStaysConsistent | App.js:38-87 | The state a run ends in is consistent, provided the run starts consistent and no delete lands at or before an edit in progress. |
| Session.DisciplinedPrefix | App.js:38-62 | Every prefix of a run that meets that condition meets it too. |
| Session.DisciplinedRunConsistentThroughout | App.js:38-87 | Every intermediate state of such a run, after any number of its events, is consistent. |
| Session.RunWithoutDeleteIsDisciplined | App.js:38-62 | A run without deletes meets that condition from any start state. |
| Session.ReachableWithoutDeleteIsConsistent | App.js:12-87 | Every state reachable from the mounted screen without deletes is consistent. |
| Session.ExampleSessions | App.js:38-62 | Fixed example runs give the expected states: add "Buy milk" to an empty list; on ["A","B","C"], start-edit row 1, update it to "B2", delete row 1. A press on a missing row 3 stops the run. |
| Session.UndisciplinedRunLeavesHole | App.js:38-62 | The run edit(2), delete(0), delete(0), submit on ["A","B","C"] breaks the condition above. It ends in ["C", hole, "C"], which is inconsistent. |

## Left out

- Clock: `new Date().getHours()` is not modelled. The hour is a parameter of `GreetingFor`.
- Greeting refresh: the hourly `setInterval`, its `clearInterval` on unmount, and the `useEffect` lifecycle are not modelled. They are timer and lifecycle plumbing with no state of their own.
- Greeting state: the `greeting` state variable, including its empty value before the first update, is not modelled. Only the label computation is.
- Rendering: `FlatList`, `keyExtractor`, `TouchableOpacity` and the style sheet are not modelled. The exception is the submit button's caption (`ButtonLabel`).
- setState batching: React's asynchronous `setState` batching is not modelled. Each handler is one atomic transition on a snapshot.
- Out-of-range row indices: a row index outside the list cannot reach start-edit or delete, because row buttons exist only for rendered rows. `StartEdit` and `Delete` therefore require a valid index, and a session press on a missing row yields `NoSuchRow`. JavaScript's `splice` semantics for negative or out-of-range indices are not modelled.
- Holes versus `undefined`: the two are not distinguished (see above).
- Cursor below -1: `Cursor` excludes values below -1, since no handler ever stores one.

=== FILE: greeting.dfy ===
/**
 The greeting shown above the task list: one of four fixed labels chosen from the
 hour of the day by half-open ranges. The clock that supplies the hour and the
 hourly timer that re-evaluates the greeting are outside the model; the hour is a
 parameter.
 */
module Greeting {

  const Morning := "Good Morning"
  const Afternoon := "Good Afternoon"
  const Evening := "Good Evening"
  const Night := "Good Night"

  /** An hour of the day as a local clock reports it. */
  predicate IsHour(h: int) {
    0 <= h < 24
  }

  /** The label for `hour`. Night is the fall-through case, so it covers the
      evening tail of the day and the early morning together, and any value outside
      the ranges of the other three. */
  function GreetingFor(hour: int): (g: string)
    ensures g in {Morning, Afternoon, Evening, Night}
    ensures g == Morning <==> 5 <= hour < 12
    ensures g == Afternoon <==> 12 <= hour < 17
    ensures g == Evening <==> 17 <= hour < 21
    ensures IsHour(hour) ==> (g == Night <==> 21 <= hour || hour < 5)
  {
    if 5 <= hour < 12 then Morning
    else if 12 <= hour < 17 then Afternoon
    else if 17 <= hour < 21 then Evening
    else Night
  }

  /** The hours at which the greeting differs from the one an hour earlier: exactly
      5, 12, 17 and 21. In particular it does not change at midnight. */
  predicate IsBoundary(h: int) {
    h == 5 || h == 12 || h == 17 || h == 21
  }

  /** Going round the clock one hour at a time, the greeting changes exactly at the
      four boundaries, and the step from 23 to 0 keeps it. */
  lemma GreetingChangesOnlyAtBoundaries(h: int)
    requires IsHour(h)
    ensures GreetingFor(h) != GreetingFor((h + 1) % 24) <==> IsBoundary((h + 1) % 24)
  {
  }

  /** The greeting at each boundary: the hour before each range starts, and the first
      and last hour of each range. */
  lemma GreetingBoundaryHours()
    ensures GreetingFor(4) == Night && GreetingFor(5) == Morning
    ensures GreetingFor(11) == Morning && GreetingFor(12) == Afternoon
    ensures GreetingFor(16) == Afternoon && GreetingFor(17) == Evening
    ensures GreetingFor(20) == Evening && GreetingFor(21) == Night
    ensures GreetingFor(23) == Night && GreetingFor(0) == Night
  {
  }
}

=== FILE: js_array.dfy ===
/**
 The part of JavaScript's value and array semantics that the task list handlers
 rely on: truthiness of the draft, assignment to an array index (which may lie
 past the end and so grow the array with holes), and `splice(i, 1)`.

 A hole of a sparse array and an element holding `undefined` are the same value
 here. Every handler that writes the list first copies it with the spread
 operator, which turns holes into `undefined`; start-edit and the list's
 rendering read by index, which yields `undefined` for a hole as well. Nothing
 the application does tells the two apart.
 */
module JsArray {

  /** A value that can sit in the task list or in the draft: a string, or `undefined`. */
  datatype JsValue = Undefined | Str(text: string)

  /** JavaScript truthiness over the values above: `undefined` and `""` are falsy, every
      other string (whitespace-only ones included) is truthy. */
  function Truthy(v: JsValue): (b: bool)
    ensures !b <==> v == Undefined || v == Str("")
  {
    v.Str? && v.text != ""
  }

  /** `n` holes. */
  function Holes(n: nat): (r: seq<JsValue>)
    ensures |r| == n
    ensures forall k :: 0 <= k < n ==> r[k] == Undefined
  {
    seq(n, _ => Undefined)
  }

  /** `a[k] = v` on an array, for an array index `k`. Inside the array the element is
      replaced; past the end the length becomes `k + 1` and the positions between the
      old end and `k` are holes (ECMA-262, section 10.4.2, Array exotic objects). */
  function Store(a: seq<JsValue>, k: nat, v: JsValue): (r: seq<JsValue>)
    ensures |r| == if k < |a| then |a| else k + 1
    ensures r[k] == v
    ensures forall j :: 0 <= j < |a| && j != k ==> r[j] == a[j]
    ensures forall j :: |a| <= j < k ==> r[j] == Undefined
  {
    if k < |a| then a[k := v] else a + Holes(k - |a|) + [v]
  }

  /** Every element is a truthy string: the array has no holes and no empty strings. */
  predicate AllTruthy(a: seq<JsValue>) {
    forall k :: 0 <= k < |a| ==> Truthy(a[k])
  }

  /** Storing a truthy value into a hole-free array keeps it hole-free exactly when
      the index is at most one past the end. */
  lemma StoreKeepsAllTruthyIff(a: seq<JsValue>, k: nat, v: JsValue)
    requires AllTruthy(a) && Truthy(v)
    ensures AllTruthy(Store(a, k, v)) <==> k <= |a|
  {
    var r := Store(a, k, v);
    if k > |a| {
      assert r[|a|] == Undefined;
      assert !Truthy(r[|a|]);
    } else {
      forall j | 0 <= j < |r|
        ensures Truthy(r[j])
      {
        if j != k {
          assert r[j] == a[j];
        }
      }
    }
  }

  /** `a.splice(i, 1)` with `i` an index of the array: the element at `i` is removed and
      every later element moves one position down. */
  function SpliceOne<T>(a: seq<T>, i: nat): (r: seq<T>)
    requires i < |a|
    ensures |r| == |a| - 1
    ensures forall k :: 0 <= k < i ==> r[k] == a[k]
    ensures forall k :: i <= k < |r| ==> r[k] == a[k + 1]
  {
    a[..i] + a[i + 1..]
  }

  /** Putting the removed element back where it was restores the array, so `SpliceOne`
      loses exactly that element and nothing else. */
  lemma SpliceOneInverse<T>(a: seq<T>, i: nat)
    requires i < |a|
    ensures SpliceOne(a, i)[..i] + [a[i]] + SpliceOne(a, i)[i..] == a
    ensures multiset(SpliceOne(a, i)) + multiset{a[i]} == multiset(a)
  {
  }

  /** Removing an element of a hole-free array leaves it hole-free. */
  lemma SpliceOneKeepsAllTruthy(a: seq<JsValue>, i: nat)
    requires i < |a| && AllTruthy(a)
    ensures AllTruthy(SpliceOne(a, i))
  {
  }
}

=== FILE: session.dfy ===
/**
 A session on the to-do screen as a sequence of user events, each handled by one
 transition of the task list editor. Row events name a row index; a press on a row
 the list does not have cannot happen, and a run that contains one stops there.
 */
module Session {
  import opened JsArray
  import opened TaskEditor

  /** Typing into the field, pressing the submit button, pressing a row's Edit or
      Delete button. */
  datatype Event = Type(text: string) | Press | Edit(row: int) | Remove(row: int)

  /** The event can occur in state `s`: row buttons exist only for rows of the list. */
  predicate Enabled(s: Editor, e: Event) {
    match e
    case Edit(i) => 0 <= i < |s.tasks|
    case Remove(i) => 0 <= i < |s.tasks|
    case _ => true
  }

  /** Each event goes to its handler. Typing and start-edit never change the list, a
      delete splices out exactly its row, a press is the submit handler (with a falsy
      draft it changes nothing), and after start-edit the button offers to update. */
  function Step(s: Editor, e: Event): (t: Editor)
    requires Enabled(s, e)
    ensures (e.Type? || e.Edit?) ==> t.tasks == s.tasks
    ensures e.Type? ==> t.task == Str(e.text) && t.editIndex == s.editIndex
    ensures e.Edit? ==> t.task == s.tasks[e.row] && ButtonLabel(t) == "Update Task"
    ensures e.Remove? ==> t.tasks == SpliceOne(s.tasks, e.row) && t.task == s.task && t.editIndex == s.editIndex
    ensures e.Press? ==> t == Submit(s)
    ensures e.Press? && !Truthy(s.task) ==> t == s
    ensures e.Press? && Truthy(s.task) ==> t.task == Str("") && ButtonLabel(t) == "Add Task"
  {
    match e
    case Type(text) => SetDraft(s, text)
    case Press => Submit(s)
    case Edit(i) => StartEdit(s, i)
    case Remove(i) => Delete(s, i)
  }

  datatype Outcome = NoSuchRow | Reached(state: Editor)

  /** The state after handling `evs` in order, or `NoSuchRow` if one of them presses a
      row the list does not have at that point. */
  function Run(s: Editor, evs: seq<Event>): Outcome
    decreases |evs|
  {
    if evs == [] then Reached(s)
    else if !Enabled(s, evs[0]) then NoSuchRow
    else Run(Step(s, evs[0]), evs[1..])
  }

  /** A delete that cannot disturb an edit in progress: none is in progress, or the
      deleted row comes after the edited one. */
  predicate Harmless(s: Editor, e: Event) {
    !e.Remove? || s.editIndex == NotEditing || e.row > s.editIndex
  }

  /** Every event of the run, in the state it meets, is harmless. */
  predicate Disciplined(s: Editor, evs: seq<Event>)
    decreases |evs|
  {
    evs == [] ||
    (Enabled(s, evs[0]) ==> Harmless(s, evs[0]) && Disciplined(Step(s, evs[0]), evs[1..]))
  }

  /** One harmless event keeps the editor consistent. */
  lemma StepKeepsConsistent(s: Editor, e: Event)
    requires Consistent(s) && Enabled(s, e) && Harmless(s, e)
    ensures Consistent(Step(s, e))
  {
  }

  /** A run in which no delete disturbs an edit, started from a consistent state, ends in
      a consistent state. */
  lemma {:induction false} DisciplinedRunStaysConsistent(s: Editor, evs: seq<Event>)
    requires Consistent(s) && Disciplined(s, evs)
    ensures Run(s, evs).Reached? ==> Consistent(Run(s, evs).state)
    decreases |evs|
  {
    if evs != [] && Enabled(s, evs[0]) {
      StepKeepsConsistent(s, evs[0]);
      DisciplinedRunStaysConsistent(Step(s, evs[0]), evs[1..]);
    }
  }

  /** A run without deletes is disciplined, whatever state it starts from. */
  lemma {:induction false} RunWithoutDeleteIsDisciplined(s: Editor, evs: seq<Event>)
    requires forall k :: 0 <= k < |evs| ==> !evs[k].Remove?
    ensures Disciplined(s, evs)
    decreases |evs|
  {
    if evs != [] && Enabled(s, evs[0]) {
      RunWithoutDeleteIsDisciplined(Step(s, evs[0]), evs[1..]);
    }
  }

  /** A prefix of a disciplined run is disciplined. */
  lemma {:induction false} DisciplinedPrefix(s: Editor, evs: seq<Event>, k: nat)
    requires Disciplined(s, evs) && k <= |evs|
    ensures Disciplined(s, evs[..k])
    decreases |evs|
  {
    if k > 0 && Enabled(s, evs[0]) {
      assert evs[..k][0] == evs[0];
      assert evs[..k][1..] == evs[1..][..k - 1];
      DisciplinedPrefix(Step(s, evs[0]), evs[1..], k - 1);
    }
  }

  /** Every intermediate state of a disciplined run from a consistent state is
      consistent, not only the one it ends in. */
  lemma DisciplinedRunConsistentThroughout(s: Editor, evs: seq<Event>, k: nat)
    requires Consistent(s) && Disciplined(s, evs) && k <= |evs|
    ensures Run(s, evs[..k]).Reached? ==> Consistent(Run(s, evs[..k]).state)
  {
    DisciplinedPrefix(s, evs, k);
    DisciplinedRunStaysConsistent(s, evs[..k]);
  }

  /** From the initial screen, any run without deletes reaches a consistent editor:
      no holes, no empty tasks, and the cursor on a row whenever an edit is on. */
  lemma ReachableWithoutDeleteIsConsistent(evs: seq<Event>)
    requires forall k :: 0 <= k < |evs| ==> !evs[k].Remove?
    ensures Run(Initial(), evs).Reached? ==> Consistent(Run(Initial(), evs).state)
  {
    InitialIsConsistent();
    RunWithoutDeleteIsDisciplined(Initial(), evs);
    DisciplinedRunStaysConsistent(Initial(), evs);
  }

  /** Example sessions: adding to an empty list, editing the middle one of three rows,
      and deleting it. */
  lemma ExampleSessions()
    ensures Run(Initial(), [Type("Buy milk"), Press])
         == Reached(Editor(Str(""), [Str("Buy milk")], NotEditing))
    ensures
      var abc := Editor(Str(""), [Str("A"), Str("B"), Str("C")], NotEditing);
      && Run(abc, [Edit(1)]) == Reached(Editor(Str("B"), abc.tasks, 1))
      && Run(abc, [Edit(1), Type("B2"), Press])
         == Reached(Editor(Str(""), [Str("A"), Str("B2"), Str("C")], NotEditing))
      && Run(abc, [Remove(1)]) == Reached(abc.(tasks := [Str("A"), Str("C")]))
      && Run(abc, [Remove(3)]) == NoSuchRow
  {
  }

  /** The stale-cursor defect made concrete: editing the last of three rows and
      deleting the first row twice is not a disciplined run, and the submit that
      follows leaves a hole in the list and a copy of the edited text at the end. */
  lemma UndisciplinedRunLeavesHole()
    ensures
      var abc := Editor(Str(""), [Str("A"), Str("B"), Str("C")], NotEditing);
      && !Disciplined(abc, [Edit(2), Remove(0), Remove(0), Press])
      && Run(abc, [Edit(2), Remove(0), Remove(0), Press])
         == Reached(Editor(Str(""), [Str("C"), Undefined, Str("C")], NotEditing))
      && !Consistent(Run(abc, [Edit(2), Remove(0), Remove(0), Press]).state)
  {
    var abc := Editor(Str(""), [Str("A"), Str("B"), Str("C")], NotEditing);
    var t := Delete(Delete(StartEdit(abc, 2), 0), 0);
    assert t.tasks == [Str("C")];
    assert Store(t.tasks, 2, Str("C")) == [Str("C"), Undefined, Str("C")];
    var u := Editor(Str(""), [Str("C"), Undefined, Str("C")], NotEditing);
    assert !Truthy(u.tasks[1]);
    assert !Consistent(u);
  }
}

=== FILE: stale_cursor.dfy ===
/**
 What the delete handler does to an edit in progress. Delete never moves the edit
 cursor, so once a row at or before the edited one is removed the cursor denotes a
 different row, or lies at or past the end of the list; the next submit then writes
 the draft over the wrong row, appends it, or grows the list with a hole.
 */
module StaleCursor {
  import opened JsArray
  import opened TaskEditor

  /** Deleting a row after the edited one leaves the edited row where the cursor is. */
  lemma DeleteAfterCursorKeepsEditedRow(s: Editor, i: int, j: int)
    requires 0 <= i < j < |s.tasks|
    ensures Delete(StartEdit(s, i), j).editIndex == i
    ensures Delete(StartEdit(s, i), j).tasks[i] == s.tasks[i]
  {
  }

  /** Deleting the edited row or one before it keeps the cursor at `i`, which now holds
      the row that used to follow the edited one, or is the end of the list when the
      edited row was the last. */
  lemma DeleteAtOrBeforeCursorRetargets(s: Editor, i: int, j: int)
    requires 0 <= j <= i < |s.tasks|
    ensures Delete(StartEdit(s, i), j).editIndex == i
    ensures Delete(StartEdit(s, i), j).task == s.tasks[i]
    ensures i + 1 < |s.tasks| ==> Delete(StartEdit(s, i), j).tasks[i] == s.tasks[i + 1]
    ensures i + 1 == |s.tasks| ==> i == |Delete(StartEdit(s, i), j).tasks|
  {
  }

  /** The submit that follows such a delete overwrites the row that used to follow the
      edited one. When the deleted row was before the edited one, the edited row itself
      is left untouched one position earlier, so its text now appears twice. */
  lemma StaleSubmitOverwritesNextRow(s: Editor, i: int, j: int)
    requires 0 <= j <= i && i + 1 < |s.tasks| && Truthy(s.tasks[i])
    ensures Submit(Delete(StartEdit(s, i), j)).tasks
         == s.tasks[..j] + s.tasks[j + 1..i + 1] + [s.tasks[i]] + s.tasks[i + 2..]
    ensures j < i ==> Submit(Delete(StartEdit(s, i), j)).tasks[i - 1] == s.tasks[i]
    ensures Submit(Delete(StartEdit(s, i), j)).tasks[i] == s.tasks[i]
  {
  }

  /** The usual case: start-edit on row `i`, retype the draft, delete a row at or before
      `i`, then press. The new text does not replace the edited row: it lands on the row
      that used to follow it, which is lost. */
  lemma RetypedStaleSubmitOverwritesNextRow(s: Editor, i: int, j: int, text: string)
    requires 0 <= j <= i && i + 1 < |s.tasks| && text != ""
    ensures Submit(Delete(SetDraft(StartEdit(s, i), text), j)).tasks
         == SpliceOne(s.tasks, j)[i := Str(text)]
    ensures SpliceOne(s.tasks, j)[i] == s.tasks[i + 1]
  {
  }

  /** When the edited row was the last one, the submit that follows such a delete
      appends the draft instead of replacing a row. */
  lemma StaleSubmitAppendsPastEnd(s: Editor, j: int)
    requires 0 <= j < |s.tasks| && Truthy(s.tasks[|s.tasks| - 1])
    ensures Submit(Delete(StartEdit(s, |s.tasks| - 1), j)).tasks
         == SpliceOne(s.tasks, j) + [s.tasks[|s.tasks| - 1]]
  {
  }

  /** Two deletes at the front while the last row is edited put the cursor past the end,
      and the next submit leaves a hole in the list: the state is no longer consistent. */
  lemma TwoDeletesLeaveHole(s: Editor)
    requires |s.tasks| >= 2 && Truthy(s.tasks[|s.tasks| - 1])
    ensures Delete(Delete(StartEdit(s, |s.tasks| - 1), 0), 0).editIndex
          > |Delete(Delete(StartEdit(s, |s.tasks| - 1), 0), 0).tasks|
    ensures |Submit(Delete(Delete(StartEdit(s, |s.tasks| - 1), 0), 0)).tasks| == |s.tasks|
    ensures Submit(Delete(Delete(StartEdit(s, |s.tasks| - 1), 0), 0)).tasks[|s.tasks| - 2] == Undefined
    ensures Submit(Delete(Delete(StartEdit(s, |s.tasks| - 1), 0), 0)).tasks[|s.tasks| - 1] == s.tasks[|s.tasks| - 1]
    ensures !Consistent(Submit(Delete(Delete(StartEdit(s, |s.tasks| - 1), 0), 0)))
  {
  }

  /** Starting an edit on a hole makes the draft `undefined`, which the submit handler
      treats as empty: a press straight away is ignored and edit mode stays on. Typing a
      non-empty text first and then pressing fills the hole with that text. */
  lemma HoleDraftSubmitIgnored(s: Editor, i: int)
    requires 0 <= i < |s.tasks| && s.tasks[i] == Undefined
    ensures Submit(StartEdit(s, i)) == StartEdit(s, i)
    ensures ButtonLabel(Submit(StartEdit(s, i))) == "Update Task"
    ensures forall text: string :: text != "" ==>
      Submit(SetDraft(StartEdit(s, i), text)).tasks == s.tasks[i := Str(text)]
  {
  }
}

=== FILE: task_editor.dfy ===
/**
 The task list editor of the to-do screen: the draft in the text field, the list of
 tasks, and the edit cursor, with the four handlers that change them. Each handler
 is one atomic transition from a snapshot of the state to the next snapshot.
 */
module TaskEditor {
  import opened JsArray

  /** The edit cursor: -1 while adding, otherwise the row index the last start-edit
      stored. The handlers never store anything below -1. */
  type Cursor = i: int | -1 <= i

  const NotEditing: Cursor := -1

  /** The three pieces of state the handlers touch: the draft `task`, the list
      `tasks` and the cursor `editIndex`. */
  datatype Editor = Editor(task: JsValue, tasks: seq<JsValue>, editIndex: Cursor)

  /** The state when the screen mounts: empty draft, empty list, not editing. */
  function Initial(): (s: Editor)
    ensures s.tasks == [] && s.editIndex == NotEditing
    ensures s.task.Str? && !Truthy(s.task)
  {
    Editor(Str(""), [], NotEditing)
  }

  /** The text field's change handler: the draft becomes the typed text. */
  function SetDraft(s: Editor, text: string): (t: Editor)
    ensures t.task == Str(text)
    ensures t.tasks == s.tasks && t.editIndex == s.editIndex
  {
    s.(task := Str(text))
  }

  /** The submit button's handler. A falsy draft changes nothing. Otherwise, while not
      editing the draft is appended; while editing it is written at the cursor; in both
      cases the draft is cleared and the cursor reset. The write at the cursor follows
      JavaScript: a cursor at or past the end of the list grows it. */
  function Submit(s: Editor): (t: Editor)
    ensures !Truthy(s.task) ==> t == s
    ensures Truthy(s.task) ==> t.task == Str("") && t.editIndex == NotEditing
    ensures Truthy(s.task) && s.editIndex == NotEditing ==>
      && |t.tasks| == |s.tasks| + 1
      && t.tasks[..|s.tasks|] == s.tasks
      && t.tasks[|s.tasks|] == s.task
    ensures Truthy(s.task) && s.editIndex != NotEditing ==>
      && |t.tasks| == (if s.editIndex < |s.tasks| then |s.tasks| else s.editIndex + 1)
      && t.tasks[s.editIndex] == s.task
      && (forall k :: 0 <= k < |s.tasks| && k != s.editIndex ==> t.tasks[k] == s.tasks[k])
      && (forall k :: |s.tasks| <= k < s.editIndex ==> t.tasks[k] == Undefined)
  {
    if !Truthy(s.task) then
      s
    else if s.editIndex != NotEditing then
      Editor(Str(""), Store(s.tasks, s.editIndex, s.task), NotEditing)
    else
      Editor(Str(""), s.tasks + [s.task], NotEditing)
  }

  /** The row's edit handler: the draft becomes the row's value and the cursor the
      row's index, whether or not an edit was already in progress. */
  function StartEdit(s: Editor, i: int): (t: Editor)
    requires 0 <= i < |s.tasks|
    ensures t.task == s.tasks[i] && t.editIndex == i
    ensures t.tasks == s.tasks
  {
    Editor(s.tasks[i], s.tasks, i)
  }

  /** The row's delete handler: the row is spliced out of the list. The draft and the
      cursor are left as they are. */
  function Delete(s: Editor, i: int): (t: Editor)
    requires 0 <= i < |s.tasks|
    ensures |t.tasks| == |s.tasks| - 1
    ensures forall k :: 0 <= k < i ==> t.tasks[k] == s.tasks[k]
    ensures forall k :: i <= k < |t.tasks| ==> t.tasks[k] == s.tasks[k + 1]
    ensures t.task == s.task && t.editIndex == s.editIndex
  {
    s.(tasks := SpliceOne(s.tasks, i))
  }

  /** The caption of the submit button. */
  function ButtonLabel(s: Editor): (l: string)
    ensures l in {"Add Task", "Update Task"}
    ensures l == "Update Task" <==> s.editIndex != NotEditing
  {
    if s.editIndex != NotEditing then "Update Task" else "Add Task"
  }

  /** The invariant the handlers are meant to keep: every task a non-empty string, the
      draft a string, and the cursor either off or on a row of the list. */
  predicate Consistent(s: Editor) {
    && AllTruthy(s.tasks)
    && s.task.Str?
    && (s.editIndex == NotEditing || s.editIndex < |s.tasks|)
  }

  lemma InitialIsConsistent()
    ensures Consistent(Initial())
    ensures Initial().tasks == [] && ButtonLabel(Initial()) == "Add Task"
  {
  }

  /** The only draft the submit handler rejects is the empty string: a whitespace-only
      draft is accepted as it is, without trimming. */
  lemma SubmitRejectsOnlyEmptyDraft(s: Editor, text: string)
    ensures Submit(SetDraft(s, text)) == SetDraft(s, text) <==> text == ""
  {
  }

  /** In add mode every non-empty typed text is appended exactly as typed, so a
      whitespace-only draft such as `"   "` is appended untrimmed. */
  lemma NonEmptyDraftIsAppended(s: Editor, text: string)
    requires s.editIndex == NotEditing && text != ""
    ensures Submit(SetDraft(s, text)).tasks == s.tasks + [Str(text)]
    ensures Submit(SetDraft(s, "   ")).tasks == s.tasks + [Str("   ")]
  {
  }

  /** Adding the same text twice yields two equal tasks: nothing is merged. */
  lemma SubmitAppendsDuplicates(s: Editor, text: string)
    requires s.editIndex == NotEditing && text != ""
    ensures Submit(SetDraft(Submit(SetDraft(s, text)), text)).tasks == s.tasks + [Str(text), Str(text)]
  {
  }

  /** Starting an edit and submitting the unchanged draft gives back the list it
      started from, and leaves edit mode. */
  lemma EditUnchangedRoundTrip(s: Editor, i: int)
    requires 0 <= i < |s.tasks| && Truthy(s.tasks[i])
    ensures Submit(StartEdit(s, i)).tasks == s.tasks
    ensures Submit(StartEdit(s, i)).editIndex == NotEditing
  {
  }

  /** Every handler except delete keeps the state consistent. */
  lemma SubmitKeepsConsistent(s: Editor)
    requires Consistent(s)
    ensures Consistent(Submit(s))
  {
  }

  lemma StartEditKeepsConsistent(s: Editor, i: int)
    requires Consistent(s) && 0 <= i < |s.tasks|
    ensures Consistent(StartEdit(s, i))
  {
  }

  lemma SetDraftKeepsConsistent(s: Editor, text: string)
    requires Consistent(s)
    ensures Consistent(SetDraft(s, text))
  {
  }

  /** Delete keeps the state consistent exactly when no edit is in progress or the
      edited row is not the last one; deleting any row while the last row is being
      edited leaves the cursor at the end of the list. */
  lemma DeleteKeepsConsistentIff(s: Editor, i: int)
    requires Consistent(s) && 0 <= i < |s.tasks|
    ensures Consistent(Delete(s, i)) <==> s.editIndex == NotEditing || s.editIndex < |s.tasks| - 1
  {
  }

  /** The button reads "Update Task" right after start-edit, from any state. */
  lemma ButtonLabelAfterStartEdit(s: Editor, i: int)
    requires 0 <= i < |s.tasks|
    ensures ButtonLabel(StartEdit(s, i)) == "Update Task"
  {
  }

  /** The button reads "Add Task" right after an accepted submit, and a rejected submit
      leaves it as it was. */
  lemma ButtonLabelAfterSubmit(s: Editor)
    ensures Truthy(s.task) ==> ButtonLabel(Submit(s)) == "Add Task"
    ensures !Truthy(s.task) ==> ButtonLabel(Submit(s)) == ButtonLabel(s)
  {
  }
}
